=== FILE: README.md ===
# Subscription dashboard core, modelled in Dafny

This project models the logic inside a device-rental subscription dashboard.
That logic is:

- the client-side subscription store and its two transitions, extend and cancel;
- the date arithmetic behind "days remaining" and "months active";
- the capability set and billing projection of the detail endpoint;
- the decisions of the list view: title search, filter panel state, and what a card shows and where it leads.

Everything is pure. The clock `now` is a parameter. Instants are integer
milliseconds since the Unix epoch, and money is integer cents.

Modules follow the source files:

| module | file | models |
|---|---|---|
| `Types` | `types.dfy` | `src/types/subscription.ts`: states, products, plans, subscriptions |
| `Text` | `text.dfy` | `toLowerCase`, `trim`, `includes`, decimal rendering of numbers |
| `Utils` | `utils.dfy` | `src/utils/index.ts`: ceiling divisions and `getStatusText` |
| `Detail` | `detail.dfy` | the detail endpoint's status info and billing, and the formulas its logic tests restate |
| `Store` | `store.dfy` | `src/contexts/SubscriptionsContext.tsx`: update, extend, cancel |
| `SearchBar` | `search_bar.dfy` | `src/components/SearchBar.tsx` |
| `Filters` | `filters.dfy` | `src/components/subscription/SubscriptionFilters.tsx` |
| `Card` | `card.dfy` | `src/components/subscription/SubscriptionCard.tsx` |
| `Lifecycle` | `lifecycle.dfy` | how store transitions relate to the endpoint's capability flags |

Points where the code behaves differently from what its names or tests suggest, which the model follows as written:

- Cancelling keeps `activeUntil` on the record (`Store.CancelKeepsActiveUntil`).
  So a cancelled record still has an end date, and an end date does not imply the ACTIVE state; `Store.LifecycleConsistent` states only the termination/activation consistency that both transitions keep.
- A draft's capability set says it can be cancelled, but the store cancels only ACTIVE records (`Lifecycle.DraftCanCancelButIsRefused`).
- The store checks only the first entry with the id (`find`), but it updates every entry with that id.
  Under unique ids, an extension never shortens a term (`Store.ExtendNeverShortens`).
  With a repeated id it can shorten one (`Store.ExtendShortensRepeatedId`).
- The card tests expect the badge texts "ACTIVE", "In transit" and "DRAFT".
  The code renders `getStatusText`, which gives "Active", "In preparation" and "Customizing", and the model follows the code (`Card.BadgeScenarios`).
- The card tests also expect the exact text "REF-123", while the card renders the reference as "Ref: REF-123" (`Card.CardFor`).

## Model

| member | source | states |
|---|---|---|
| `Types.StateNameRoundTrip` | src/types/subscription.ts:31 | each of the seven states has its own spelling, which reads back to that state |
| `Text.Lower` | src/components/SearchBar.tsx:80 | lower-casing keeps the length and maps every character on its own |
| `Text.LowerIdempotent` | src/components/SearchBar.tsx:80 | lower-casing an already lower-cased string changes nothing |
| `Text.Trim` | src/components/SearchBar.tsx:74 | the result is a contiguous slice of the input whose outside parts are all whitespace, and a non-empty result starts and ends with non-whitespace |
| `Text.TrimEmptyIffBlank` | src/components/SearchBar.tsx:74 | `!term.trim()` holds exactly when every character of the term is whitespace |
| `Text.Includes` | src/components/SearchBar.tsx:80 | `includes` is true exactly when the needle occurs at some position of the haystack |
| `Text.NatToDecimalRoundTrip` | src/components/subscription/SubscriptionFilters.tsx:151 | the decimal text of a count reads back to the count |
| `Text.IntToDecimalRoundTrip` | src/components/subscription/SubscriptionCard.tsx:205 | the decimal text of any integer, negative included, reads back to it |
| `Utils.CeilDiv` | src/utils/index.ts:20 | `Math.ceil(a / b)` is the integer r with (r-1)·b < a ≤ r·b |
| `Utils.CeilDivUnique` | src/utils/index.ts:20 | only one integer satisfies that bracket |
| `Utils.CeilDivExact` | src/utils/index.ts:20 | an exact multiple k·b divides to k, with no rounding |
| `Utils.CeilDivMonotone` | src/utils/index.ts:27 | a larger difference never gives a smaller ceiling |
| `Utils.CeilDivShift` | src/utils/index.ts:20 | adding k whole divisors adds exactly k to the ceiling |
| `Utils.CalculateDaysRemaining` | src/utils/index.ts:16-21 | the result is the number of days to the end, a partial day counting as whole, negative in the past |
| `Utils.CalculateMonthsActive` | src/utils/index.ts:23-28 | the result is the number of 30-day months since the start, a partial month counting as whole, negative for a future start |
| `Utils.DaysRemainingWholeDays` | src/utils/__tests__/utils.test.ts:48-56 | an end exactly k days away, in either direction, gives k |
| `Utils.DaysRemainingSameInstant` | src/utils/__tests__/utils.test.ts:51 | the same instant gives 0 |
| `Utils.DaysRemainingNonIncreasing` | src/utils/index.ts:16-21 | days remaining never grow as the clock advances |
| `Utils.DaysRemainingShift` | src/utils/index.ts:19-20 | moving the clock back k whole days adds exactly k days remaining |
| `Utils.MonthsActiveNonDecreasing` | src/utils/index.ts:23-28 | months active never shrink as the clock advances |
| `Utils.MonthsActiveWholeMonths` | src/utils/index.ts:23-28 | exactly k flat months give k |
| `Utils.MonthsActivePartial` | src/utils/__tests__/utils.test.ts:82-85 | 1 to 30 days give 1 month and 31 to 60 days give 2 |
| `Utils.DaysRemainingScenarios` | src/utils/__tests__/utils.test.ts:48-62 | from 2024-01-01 the ends 01-31, 01-02, 01-01, 2023-12-31, 2023-12-01, 12-31 and 2025-01-01 give 30, 1, 0, -1, -31, 365 and 366; from 2024-06-01 to 2024-12-31 gives 213 |
| `Utils.MonthsActiveScenarios` | src/utils/__tests__/utils.test.ts:76-90 | at 2024-07-01 the starts 01-01, 06-01, 07-01, 06-15, 05-15, 08-01 and 12-01 give 7, 1, 0, 1, 2, -1 and -5 |
| `Utils.GetStatusText` | src/utils/index.ts:30-42 | DRAFT, FULFILLING, ACTIVE and TERMINATED map to Customizing, In preparation, Active and Completed; any other string is returned unchanged |
| `Utils.StatusTextInjective` | src/utils/index.ts:30-42 | no two states share a badge text |
| `Detail.ComputeBilling` | src/pages/api/__tests__/api-logic.test.ts:88-90 | completed months are capped at the term; remaining months are never negative and are 0 exactly when the term has elapsed; completed plus remaining months make up the term |
| `Detail.PaidPlusRemainingIsTotal` | src/pages/api/__tests__/api-logic.test.ts:88-90 | paid plus remaining equals the total value for every month count, overdue included |
| `Detail.BillingBounds` | src/pages/api/__tests__/api-logic.test.ts:88-90 | when months, term and price are non-negative, paid and remaining each lie between 0 and the total |
| `Detail.FutureActivationGivesNegativePaid` | src/pages/api/__tests__/api-logic.test.ts:88-89 | nothing clamps months from below, so -1 month gives a negative paid amount and a remaining amount above the total |
| `Detail.BillingScenarios` | src/pages/api/__tests__/api-logic.test.ts:80-107 | 12 months at 19999 with 6 active give 119994 / 119994 / 239988; with 15 active, paid is capped at 239988 and remaining is 0 |
| `Detail.StatusInfoMatchesExpectedRows` | src/pages/api/__tests__/api-logic.test.ts:30-76 | the endpoint produces the ACTIVE, DRAFT and TERMINATED rows of flags, day counts and billing dates |
| `Detail.ActiveDaysRemainingScenario` | src/pages/api/__tests__/api-logic.test.ts:14-20 | from 2024-06-01 to an end of 2024-12-31, 213 days remain |
| `Store.MergeNoChanges` | src/contexts/SubscriptionsContext.tsx:33 | spreading an empty patch leaves the record as it was |
| `Store.MergeIdempotent` | src/contexts/SubscriptionsContext.tsx:33 | spreading the same patch twice equals spreading it once |
| `Store.Merge` | src/contexts/SubscriptionsContext.tsx:33 | definitional: `{ ...sub, ...updates }`, the patch's present fields win (its properties are `Store.MergeNoChanges` and `Store.MergeIdempotent`) |
| `Store.UpdateSubscription` | src/contexts/SubscriptionsContext.tsx:31-35 | every entry with the id gets the patch; all other entries, the length and the order are unchanged |
| `Store.UpdateIdempotent` | src/contexts/SubscriptionsContext.tsx:31-35 | repeating an update with a patch that keeps the id changes nothing further |
| `Store.UpdateNoChanges` | src/contexts/SubscriptionsContext.tsx:31-35 | an update with an empty patch leaves the list unchanged |
| `Store.FindIndex` | src/contexts/SubscriptionsContext.tsx:39 | `find` reports the first entry with the id, or nothing exactly when no entry has it |
| `Store.ExtendSubscription` | src/contexts/SubscriptionsContext.tsx:37-88 | fails with NotFound exactly when no entry has the id; succeeds exactly when the first such entry is ACTIVE with a strictly shorter term; on success every entry with the id gets the new term and nothing else changes |
| `Store.CancelSubscription` | src/contexts/SubscriptionsContext.tsx:90-136 | fails with NotFound exactly when no entry has the id; succeeds exactly when the first such entry is ACTIVE; on success every entry with the id becomes CANCELLED with termination time now, and nothing else changes |
| `Store.RejectionReasons` | src/contexts/SubscriptionsContext.tsx:39-54 | a non-ACTIVE entry is refused with NotActive; a term that is not longer is refused with PeriodNotLonger; a refused call leaves the list unchanged |
| `Store.TransitionsKeepIds` | src/contexts/SubscriptionsContext.tsx:31-35 | both transitions keep the length and every id in place |
| `Store.FindIndexAfterTransition` | src/contexts/SubscriptionsContext.tsx:39 | a change that keeps ids in place keeps the position `find` reports |
| `Store.CancelRetryRejected` | src/contexts/SubscriptionsContext.tsx:92-128 | a second cancellation is refused with NotActive |
| `Store.ExtendRetryRejected` | src/contexts/SubscriptionsContext.tsx:51-80 | a second extension to the same term is refused with PeriodNotLonger |
| `Store.ExtendAfterCancelRejected` | src/contexts/SubscriptionsContext.tsx:46-49 | a cancelled subscription cannot be extended |
| `Store.ExtendNeverShortens` | src/contexts/SubscriptionsContext.tsx:51-80 | under unique ids, no entry's term decreases |
| `Store.ExtendShortensRepeatedId` | src/contexts/SubscriptionsContext.tsx:39-80 | with a repeated id, a longer second entry is shortened, because only the first entry is validated |
| `Store.TransitionsPreserveLifecycle` | src/contexts/SubscriptionsContext.tsx:125-128 | a termination time exists exactly for ended records, and an activation time only for activated ones; both transitions keep this |
| `Store.CancelKeepsActiveUntil` | src/contexts/SubscriptionsContext.tsx:125-128 | a cancelled entry keeps its end date, term and price |
| `SearchBar.FilterByTitle` | src/components/SearchBar.tsx:79-81 | the result keeps order, keeps only matching titles, and keeps every copy of every matching entry (equal multiplicities) |
| `SearchBar.CountMatches` | src/components/SearchBar.tsx:94-96 | the counter equals the length of the title filter |
| `SearchBar.SearchResults` | src/components/SearchBar.tsx:73-84 | a blank term yields the whole list, and any other term yields the title filter |
| `SearchBar.ResultsCount` | src/components/SearchBar.tsx:94-96 | the counter is the number of entries the title filter keeps under the untrimmed term, blank terms included, and never exceeds the list length |
| `SearchBar.SearchResultsIsSubsequence` | src/components/SearchBar.tsx:79-81 | the search result is an order-preserving subsequence of the list |
| `SearchBar.SearchResultsExact` | src/components/SearchBar.tsx:79-81 | for a non-blank term, an entry is listed exactly when its lower-cased title contains the lower-cased term |
| `SearchBar.ResultsCountMatchesList` | src/components/SearchBar.tsx:94-96 | for a non-blank term, the counter equals the number of listed entries |
| `SearchBar.ClearRestoresEverything` | src/components/SearchBar.tsx:90-116 | after clearing, the button and counter are hidden and the full list shows |
| `SearchBar.BlankTermCountDisagrees` | src/components/SearchBar.tsx:74-96 | with a term of one space, one entry is listed while the counter shows 0 |
| `SearchBar.DisplayedCount` | src/components/SearchBar.tsx:94-96 | the intended counter equals `SearchBar.ResultsCount` for a non-blank term and the whole list length for a blank one, so it always matches the listed entries |
| `SearchBar.ShowsClearButton` | src/components/SearchBar.tsx:109 | definitional: the clear button shows exactly while the term is non-empty |
| `SearchBar.ShowsResultsCount` | src/components/SearchBar.tsx:116 | definitional: the counter shows exactly while the term is non-empty, a blank term included |
| `SearchBar.ClearSearch` | src/components/SearchBar.tsx:90-92 | definitional: clearing sets the term to the empty string (its effect is `SearchBar.ClearRestoresEverything`) |
| `SearchBar.ResultsCountText` | src/components/SearchBar.tsx:116 | the counter's text ends with " results" |
| `SearchBar.ResultsCountTextReadsBack` | src/components/SearchBar.tsx:116 | the counter's text begins with the count's digits and a space, and those digits read back to the count |
| `Filters.HandleFilterChange` | src/components/subscription/SubscriptionFilters.tsx:123-128 | the changed key holds the new value and every other key is copied |
| `Filters.FilterChangesCompose` | src/components/subscription/SubscriptionFilters.tsx:123-128 | changes to different keys commute, and a later change to the same key wins |
| `Filters.ClearFilters` | src/components/subscription/SubscriptionFilters.tsx:130-137 | clearing sets status all, sort by date, order desc and an empty term, so no filter is active |
| `Filters.HasActiveFiltersIffNotCleared` | src/components/subscription/SubscriptionFilters.tsx:139-143 | filters are active exactly when the state differs from the cleared one |
| `Filters.HasActiveFilters` | src/components/subscription/SubscriptionFilters.tsx:139-143 | definitional: some control is away from its default (its partner is `Filters.HasActiveFiltersIffNotCleared`) |
| `Filters.ShowsClearFiltersButton` | src/components/subscription/SubscriptionFilters.tsx:209 | definitional: the "Clear Filters" button shows exactly when filters are active |
| `Filters.ClearFiltersButtonVisibility` | src/components/subscription/SubscriptionFilters.tsx:209-215 | the button is hidden after clearing, and shown after any change away from a default |
| `Filters.ResultsCountText` | src/components/subscription/SubscriptionFilters.tsx:149-152 | the caption is the count followed by the singular noun for exactly 1 and the plural otherwise, 0 included |
| `Filters.ResultsCountTextReadsBack` | src/components/subscription/SubscriptionFilters.tsx:149-152 | the caption begins with the count's digits and a space, and those digits read back to the count |
| `Card.DetailPath` | src/components/subscription/SubscriptionCard.tsx:178 | a detail route starts with "/subscriptions/" and continues with the id |
| `Card.DetailPathRoundTrip` | src/components/subscription/SubscriptionCard.tsx:178 | the id reads back from its detail route |
| `Card.ClickTarget` | src/components/subscription/SubscriptionCard.tsx:176-179 | a click navigates nowhere exactly when the subscription is terminated, and otherwise to the route of its own id |
| `Card.CardVariant` | src/components/subscription/SubscriptionCard.tsx:187 | the card is inactive exactly when the subscription is terminated |
| `Card.CardFor` | src/components/subscription/SubscriptionCard.tsx:186-223 | the card is inactive exactly when it does not navigate; the badge is the status text; "Not Activated" and "N/A" replace missing dates; the title is the product's and the reference reads "Ref: " followed by the reference id; the period text is the canonical decimal of the term (no leading zero) followed by " months" |
| `Card.BadgeScenarios` | src/components/subscription/SubscriptionCard.tsx:192-194 | active, fulfilling, expired, paused and draft cards show "Active", "In preparation", "EXPIRED", "PAUSED" and "Customizing" |
| `Card.ClickScenarios` | src/components/__tests__/SubscriptionCard.test.tsx:80-97 | the sample card navigates to "/subscriptions/sub-123", and its terminated variant does not navigate |
| `Lifecycle.ExtendIffCanExtend` | src/contexts/SubscriptionsContext.tsx:46-54 | an extension succeeds exactly when the found entry's capability set allows extending and the new term is longer |
| `Lifecycle.CancelImpliesCanCancel` | src/contexts/SubscriptionsContext.tsx:99-102 | a successful cancellation only happens to an entry whose capability set allows cancelling |
| `Lifecycle.DraftCanCancelButIsRefused` | src/contexts/SubscriptionsContext.tsx:99-102 | a draft's capability set allows cancelling, yet the store refuses it with NotActive |

## Endpoint handler members

These members model the detail endpoint itself, `src/pages/api/subscriptions/[subscriptionId].ts`.
That includes the rows and offers its logic tests do not restate.

| member | source | states |
|---|---|---|
| `Detail.MonthsActiveOf` | src/pages/api/subscriptions/[subscriptionId].ts:104-106 | months are counted from activation, and are 0 for a record that was never activated |
| `Detail.BillingFor` | src/pages/api/subscriptions/[subscriptionId].ts:108-121 | the endpoint's billing is the billing formula applied to the record's term, price and elapsed months (zero before activation), so its amounts add up to the total value |
| `Detail.LongerPlans` | src/pages/api/subscriptions/[subscriptionId].ts:76-77 | keeps exactly the plans longer than the current term, with their multiplicities |
| `Detail.InsertByPeriod` | src/pages/api/subscriptions/[subscriptionId].ts:78 | insertion adds exactly one plan to the list |
| `Detail.InsertByPeriodSorted` | src/pages/api/subscriptions/[subscriptionId].ts:78 | insertion keeps an ascending list ascending |
| `Detail.SortByPeriod` | src/pages/api/subscriptions/[subscriptionId].ts:78 | the sort result is a permutation of its input, ascending by period |
| `Detail.AvailableExtensions` | src/pages/api/subscriptions/[subscriptionId].ts:76-78 | offers are ascending by period, and each plan appears exactly as often as in the input when it is longer than the term, and otherwise not at all |
| `Detail.AvailableExtensionsExact` | src/pages/api/subscriptions/[subscriptionId].ts:76-78 | a plan is offered exactly when it is one of the product's plans and longer than the current term |
| `Detail.AvailableExtensionsScenario` | src/pages/api/subscriptions/[subscriptionId].ts:76-78 | a 6-month term with plans of 1, 3, 6 and 12 months is offered only the 12-month plan |
| `Detail.ActiveDaysRemaining` | src/pages/api/subscriptions/[subscriptionId].ts:65-73 | days remaining are never negative, and are 0 exactly when there is no end date or the end has passed |
| `Detail.StatusInfoFor` | src/pages/api/subscriptions/[subscriptionId].ts:42-101 | only a draft can be edited; draft, fulfilling and active can be cancelled; only active can be extended; days remaining are set only for active and terminated, as the zero-floored day count for active and 0 for terminated; a terminated record's termination date is carried over and no other state reports one; the billing date is the active term's end; delivery is estimated 3 days ahead only while fulfilling; offers exist only when active, and are then exactly the product's longer plans sorted by period |

## Findings

| source | as written | input that shows it | evidently intended | confidence | as-written member | corrected member |
|---|---|---|---|---|---|---|
| src/components/SearchBar.tsx:94-96 | the counter filters with the untrimmed term, while the list treats a blank term as "show everything" | term " " over one entry titled "Laptop": the list shows 1 entry, the counter shows "0 results" | the counter shows the number of entries listed | medium; not executed | `SearchBar.BlankTermCountDisagrees` | `SearchBar.DisplayedCount` |

## Left out

- Fetching and loading: `fetchSubscriptions`, the loading flag, the simulated 1000 ms delay and the console logging are I/O and UI scheduling.
- The `catch` branches of extend and cancel are not modelled: nothing inside their `try` blocks can throw once the delay is removed.
- React state semantics such as stale closures and batched `setState` are not modelled. Each operation runs on the list it is given.
- Date parsing and formatting: ISO strings are integer milliseconds. `formatDate` and `formatPrice` call libraries and enter the card as function parameters.
- Float arithmetic: `Math.ceil(diff / ms)` is modelled as exact integer ceiling division. The two agree for realistic timestamp ranges.
- Empty-string dates: the source tests optional dates for truthiness, so an empty string counts as absent. The model represents only presence or absence.
- Text.Lower: maps only ASCII A-Z. JavaScript's `toLowerCase` also lower-cases other Unicode letters.
- Detail.SortByPeriod: `Array.prototype.sort` is stable, and the model's insertion sort is too, but no contract states stability.
- The detail endpoint's HTTP layer is not modelled: method 405, malformed id 400, unknown id 404, backend 500, and the database client.
- The ACTIVE row in the endpoint's logic tests carries a `daysRemaining` of 214 that is never asserted, so that value is not modelled.
- The filter panel's `showResultsCount` switch is not modelled: it only hides the caption.
- Presentation is not modelled: the status badge colours, the loading and empty views, the list and page shells, the detail page, and its fixed extension candidates {3, 6, 9, 12}.
- The wrapper's commented-out filter and sort code is not modelled.
- Database seeding and the HTTP tests against the list endpoint are not modelled.

=== FILE: card.dfy ===
/**
 * One card of the subscription list: what it shows and where a click on it
 * leads. Date and price formatting are library calls and enter as
 * parameters.
 */
module Card {

  import opened Types
  import opened Text
  import opened Utils

  datatype Variant = ActiveCard | InactiveCard

  /** Everything a card renders and does. */
  datatype CardView = CardView(
    title: string,
    badge: string,
    variant: Variant,
    clickTarget: Option<string>,
    priceText: string,
    rentalPeriodText: string,
    activatedText: string,
    activeUntilText: string,
    referenceText: string)

  const DetailPrefix := "/subscriptions/"

  /** The detail page route of a subscription. */
  function DetailPath(id: string): (path: string)
    ensures StartsWith(path, DetailPrefix)
    ensures |path| == |DetailPrefix| + |id|
    ensures path[|DetailPrefix|..] == id
  {
    DetailPrefix + id
  }

  /** Reads the subscription id back from a detail route. */
  function PathId(path: string): (id: Option<string>)
    ensures id.Some? <==> StartsWith(path, DetailPrefix)
  {
    if StartsWith(path, DetailPrefix) then Some(path[|DetailPrefix|..]) else None
  }

  lemma DetailPathRoundTrip(id: string)
    ensures PathId(DetailPath(id)) == Some(id)
  {
    assert DetailPath(id)[|DetailPrefix|..] == id;
  }

  /** `handleCardClick`: the detail route, or no navigation for a terminated subscription. */
  function ClickTarget(s: Subscription): (target: Option<string>)
    ensures target.None? <==> s.state == TERMINATED
    ensures target.Some? ==> PathId(target.value) == Some(s.id)
  {
    if s.state == TERMINATED then None
    else
      DetailPathRoundTrip(s.id);
      Some(DetailPath(s.id))
  }

  /** The card is drawn inactive exactly for a terminated subscription. */
  function CardVariant(s: Subscription): (v: Variant)
    ensures v == InactiveCard <==> s.state == TERMINATED
  {
    if s.state == TERMINATED then InactiveCard else ActiveCard
  }

  /** An optional date formatted, or the fallback text when absent. */
  function DateOr(t: Option<int>, formatDate: int -> string, fallback: string): string {
    match t
    case Some(v) => formatDate(v)
    case None => fallback
  }

  /** The card of one subscription. */
  function CardFor(s: Subscription, formatDate: int -> string, formatPrice: int -> string): (c: CardView)
    ensures c.clickTarget.None? <==> s.state == TERMINATED
    ensures c.clickTarget.Some? ==> PathId(c.clickTarget.value) == Some(s.id)
    ensures c.variant == InactiveCard <==> c.clickTarget.None?
    ensures c.badge == GetStatusText(StateName(s.state))
    ensures s.activatedAt.None? ==> c.activatedText == "Not Activated"
    ensures s.activatedAt.Some? ==> c.activatedText == formatDate(s.activatedAt.value)
    ensures s.activeUntil.None? ==> c.activeUntilText == "N/A"
    ensures s.activeUntil.Some? ==> c.activeUntilText == formatDate(s.activeUntil.value)
    ensures |c.rentalPeriodText| > 7
    ensures ParseInt(c.rentalPeriodText[..|c.rentalPeriodText| - 7]) == Some(s.rentalPeriod)
    ensures c.rentalPeriodText[..|c.rentalPeriodText| - 7] == IntToDecimal(s.rentalPeriod)
    ensures c.rentalPeriodText[|c.rentalPeriodText| - 7..] == " months"
    ensures c.priceText == formatPrice(s.monthlyPrice)
    ensures c.title == s.product.title && c.referenceText == "Ref: " + s.referenceId
  {
    var period := IntToDecimal(s.rentalPeriod) + " months";
    IntToDecimalRoundTrip(s.rentalPeriod);
    assert period[..|period| - 7] == IntToDecimal(s.rentalPeriod);
    CardView(
      s.product.title,
      GetStatusText(StateName(s.state)),
      CardVariant(s),
      ClickTarget(s),
      formatPrice(s.monthlyPrice),
      period,
      DateOr(s.activatedAt, formatDate, "Not Activated"),
      DateOr(s.activeUntil, formatDate, "N/A"),
      "Ref: " + s.referenceId)
  }

  /** The badge names the state: "Active" for an active card, the raw name for the states without a label. */
  lemma BadgeScenarios(s: Subscription, formatDate: int -> string, formatPrice: int -> string)
    ensures s.state == ACTIVE ==> CardFor(s, formatDate, formatPrice).badge == "Active"
    ensures s.state == FULFILLING ==> CardFor(s, formatDate, formatPrice).badge == "In preparation"
    ensures s.state == EXPIRED ==> CardFor(s, formatDate, formatPrice).badge == "EXPIRED"
    ensures s.state == PAUSED ==> CardFor(s, formatDate, formatPrice).badge == "PAUSED"
    ensures s.state == DRAFT ==> CardFor(s, formatDate, formatPrice).badge == "Customizing"
  {
  }

  /** A click on the sample active card goes to "/subscriptions/sub-123"; a terminated one goes nowhere. */
  lemma ClickScenarios(s: Subscription)
    requires s.id == "sub-123"
    ensures s.state == ACTIVE ==> ClickTarget(s) == Some("/subscriptions/sub-123")
    ensures ClickTarget(s.(state := TERMINATED)).None?
  {
    assert DetailPath("sub-123") == "/subscriptions/sub-123";
  }
}

=== FILE: detail.dfy ===
/**
 * The figures the subscription detail endpoint derives from one record:
 * the capability set of its lifecycle state, the extension offers, and the
 * billing projection. The clock `now` is a parameter.
 */
module Detail {

  import opened Types
  import opened Utils

  // ---------------------------------------------------------------------
  // Billing projection

  datatype BillingInfo = BillingInfo(
    totalPaid: int,
    totalRemaining: int,
    monthlyPrice: int,
    totalSubscriptionValue: int,
    monthsCompleted: int,
    monthsRemaining: int)

  function Min(a: int, b: int): int { if a <= b then a else b }
  function Max(a: int, b: int): int { if a >= b then a else b }

  /**
   * The projection for a term of `rentalPeriod` months at `monthlyPrice`
   * cents after `monthsActive` months: elapsed months are capped at the term
   * and remaining months floored at zero.
   */
  function ComputeBilling(rentalPeriod: int, monthlyPrice: int, monthsActive: int): (b: BillingInfo)
    ensures b.monthsCompleted <= rentalPeriod && b.monthsCompleted <= monthsActive
    ensures b.monthsCompleted == rentalPeriod || b.monthsCompleted == monthsActive
    ensures b.monthsRemaining >= 0
    ensures b.monthsRemaining == 0 <==> monthsActive >= rentalPeriod
    ensures b.monthsCompleted + b.monthsRemaining == rentalPeriod
    ensures b.totalPaid == b.monthsCompleted * monthlyPrice
    ensures b.totalRemaining == b.monthsRemaining * monthlyPrice
    ensures b.totalSubscriptionValue == rentalPeriod * monthlyPrice
    ensures b.monthlyPrice == monthlyPrice
  {
    var completed := Min(monthsActive, rentalPeriod);
    var remaining := Max(0, rentalPeriod - monthsActive);
    BillingInfo(
      completed * monthlyPrice,
      remaining * monthlyPrice,
      monthlyPrice,
      rentalPeriod * monthlyPrice,
      completed,
      remaining)
  }

  /** Paid plus remaining is the whole contract value, for every month count, overdue or not. */
  lemma PaidPlusRemainingIsTotal(rentalPeriod: int, monthlyPrice: int, monthsActive: int)
    ensures var b := ComputeBilling(rentalPeriod, monthlyPrice, monthsActive);
            b.totalPaid + b.totalRemaining == b.totalSubscriptionValue
  {
  }

  /** With a started term and a non-negative price, both amounts lie between zero and the total. */
  lemma BillingBounds(rentalPeriod: int, monthlyPrice: int, monthsActive: int)
    requires 0 <= monthsActive && 0 <= rentalPeriod && 0 <= monthlyPrice
    ensures var b := ComputeBilling(rentalPeriod, monthlyPrice, monthsActive);
            && 0 <= b.totalPaid <= b.totalSubscriptionValue
            && 0 <= b.totalRemaining <= b.totalSubscriptionValue
  {
  }

  /**
   * Nothing clamps elapsed months from below: an activation date in the
   * future makes the paid amount negative and the remaining amount exceed
   * the contract value.
   */
  lemma FutureActivationGivesNegativePaid()
    ensures var b := ComputeBilling(12, 19999, -1);
            b.totalPaid == -19999 && b.totalRemaining == 259987 && b.totalRemaining > b.totalSubscriptionValue
  {
  }

  /** The figures the endpoint's billing scenarios expect. */
  lemma BillingScenarios()
    ensures ComputeBilling(12, 19999, 6).totalPaid == 119994
    ensures ComputeBilling(12, 19999, 6).totalRemaining == 119994
    ensures ComputeBilling(12, 19999, 6).totalSubscriptionValue == 239988
    ensures ComputeBilling(12, 19999, 15).totalPaid == 239988
    ensures ComputeBilling(12, 19999, 15).totalRemaining == 0
  {
  }

  /** Elapsed months of a record: counted from activation, zero when never activated. */
  function MonthsActiveOf(s: Subscription, now: int): (months: int)
    ensures s.activatedAt.None? ==> months == 0
    ensures s.activatedAt.Some? ==>
              (months - 1) * MsPerMonth < now - s.activatedAt.value <= months * MsPerMonth
  {
    match s.activatedAt
    case Some(t) => CalculateMonthsActive(t, now)
    case None => 0
  }

  function BillingFor(s: Subscription, now: int): (b: BillingInfo)
    ensures b.totalPaid + b.totalRemaining == b.totalSubscriptionValue
    ensures b.monthlyPrice == s.monthlyPrice
    ensures b.monthsCompleted + b.monthsRemaining == s.rentalPeriod
    ensures b == ComputeBilling(s.rentalPeriod, s.monthlyPrice, MonthsActiveOf(s, now))
  {
    PaidPlusRemainingIsTotal(s.rentalPeriod, s.monthlyPrice, MonthsActiveOf(s, now));
    ComputeBilling(s.rentalPeriod, s.monthlyPrice, MonthsActiveOf(s, now))
  }

  // ---------------------------------------------------------------------
  // Extension offers

  predicate SortedByPeriod(plans: seq<RentalPlan>) {
    forall i, j :: 0 <= i < j < |plans| ==> plans[i].period <= plans[j].period
  }

  /** The plans strictly longer than `current`, in their original order. */
  function LongerPlans(plans: seq<RentalPlan>, current: int): (r: seq<RentalPlan>)
    ensures forall p :: multiset(r)[p] == if p.period > current then multiset(plans)[p] else 0
    ensures forall i :: 0 <= i < |r| ==> r[i].period > current
  {
    if |plans| == 0 then []
    else
      assert plans == [plans[0]] + plans[1..];
      (if plans[0].period > current then [plans[0]] else []) + LongerPlans(plans[1..], current)
  }

  /** Inserts a plan before the first one of equal or longer period. */
  function InsertByPeriod(x: RentalPlan, sorted: seq<RentalPlan>): (r: seq<RentalPlan>)
    ensures multiset(r) == multiset(sorted) + multiset{x}
    ensures |r| == |sorted| + 1
    ensures r[0] == x || (|sorted| > 0 && r[0] == sorted[0])
  {
    if |sorted| == 0 || x.period <= sorted[0].period then
      [x] + sorted
    else
      assert sorted == [sorted[0]] + sorted[1..];
      [sorted[0]] + InsertByPeriod(x, sorted[1..])
  }

  /** Insertion keeps an ascending list ascending. */
  lemma {:induction false} InsertByPeriodSorted(x: RentalPlan, sorted: seq<RentalPlan>)
    requires SortedByPeriod(sorted)
    ensures SortedByPeriod(InsertByPeriod(x, sorted))
  {
    if |sorted| > 0 && x.period > sorted[0].period {
      var tail := sorted[1..];
      assert SortedByPeriod(tail) by {
        forall i, j | 0 <= i < j < |tail|
          ensures tail[i].period <= tail[j].period
        {
          assert tail[i] == sorted[i + 1] && tail[j] == sorted[j + 1];
        }
      }
      InsertByPeriodSorted(x, tail);
      var rest := InsertByPeriod(x, tail);
      var r := [sorted[0]] + rest;
      assert r == InsertByPeriod(x, sorted);
      assert rest[0].period >= sorted[0].period;
      forall i, j | 0 <= i < j < |r|
        ensures r[i].period <= r[j].period
      {
        assert r[j] == rest[j - 1];
        if i > 0 {
          assert r[i] == rest[i - 1];
        } else if j > 1 {
          assert rest[0].period <= rest[j - 1].period;
        }
      }
    }
  }

  /** An insertion sort by ascending period. */
  function SortByPeriod(plans: seq<RentalPlan>): (r: seq<RentalPlan>)
    ensures multiset(r) == multiset(plans)
    ensures SortedByPeriod(r)
  {
    if |plans| == 0 then []
    else
      assert plans == [plans[0]] + plans[1..];
      InsertByPeriodSorted(plans[0], SortByPeriod(plans[1..]));
      InsertByPeriod(plans[0], SortByPeriod(plans[1..]))
  }

  /**
   * The extensions offered to an active subscription: the product's plans
   * whose period strictly exceeds the current term, shortest first.
   */
  function AvailableExtensions(plans: seq<RentalPlan>, current: int): (r: seq<RentalPlan>)
    ensures SortedByPeriod(r)
    ensures forall p :: multiset(r)[p] == if p.period > current then multiset(plans)[p] else 0
  {
    SortByPeriod(LongerPlans(plans, current))
  }

  /** Every offer is longer than the current term, and every longer plan is offered. */
  lemma AvailableExtensionsExact(plans: seq<RentalPlan>, current: int, p: RentalPlan)
    ensures p in AvailableExtensions(plans, current) <==> p in plans && p.period > current
  {
    var r := AvailableExtensions(plans, current);
    assert multiset(r)[p] == if p.period > current then multiset(plans)[p] else 0;
  }

  /** A term of 6 months with plans of 1, 3, 6 and 12 months is offered only the 12-month plan. */
  lemma AvailableExtensionsScenario(p1: RentalPlan, p3: RentalPlan, p6: RentalPlan, p12: RentalPlan)
    requires p1.period == 1 && p3.period == 3 && p6.period == 6 && p12.period == 12
    ensures AvailableExtensions([p1, p3, p6, p12], 6) == [p12]
  {
    var plans := [p1, p3, p6, p12];
    assert plans[1..] == [p3, p6, p12];
    assert plans[1..][1..] == [p6, p12];
    assert plans[1..][1..][1..] == [p12];
    assert LongerPlans([p12], 6) == [p12] by {
      assert [p12][1..] == [];
    }
    assert LongerPlans([p6, p12], 6) == [p12] by {
      assert [p6, p12][1..] == [p12];
    }
    assert LongerPlans([p3, p6, p12], 6) == [p12] by {
      assert [p3, p6, p12][1..] == [p6, p12];
    }
    assert LongerPlans(plans, 6) == [p12];
    assert SortByPeriod([p12]) == [p12] by {
      assert [p12][1..] == [];
    }
  }

  // ---------------------------------------------------------------------
  // Capability set

  datatype StatusInfo = StatusInfo(
    canEdit: bool,
    canCancel: bool,
    canExtend: bool,
    daysRemaining: Option<int>,
    nextBillingDate: Option<int>,
    estimatedDelivery: Option<int>,
    terminatedAt: Option<int>,
    availableExtensions: Option<seq<RentalPlan>>)

  /** Whole days left in an active term, floored at zero; zero when no end date is set. */
  function ActiveDaysRemaining(activeUntil: Option<int>, now: int): (days: int)
    ensures days >= 0
    ensures days == 0 <==> activeUntil.None? || activeUntil.value <= now
    ensures activeUntil.Some? && activeUntil.value > now ==>
              days == CalculateDaysRemaining(activeUntil.value, now)
  {
    match activeUntil
    case Some(t) => Max(0, CalculateDaysRemaining(t, now))
    case None => 0
  }

  /**
   * The capability set of a record in its current state. An active record's
   * product must come with its rental plans, as the endpoint loads them
   * together.
   */
  function StatusInfoFor(s: Subscription, now: int): (info: StatusInfo)
    requires s.state == ACTIVE ==> s.product.rentalPlans.Some?
    ensures info.canEdit <==> s.state == DRAFT
    ensures info.canCancel <==> s.state in {DRAFT, FULFILLING, ACTIVE}
    ensures info.canExtend <==> s.state == ACTIVE
    ensures info.daysRemaining.Some? <==> s.state in {ACTIVE, TERMINATED}
    ensures info.daysRemaining.Some? ==> info.daysRemaining.value >= 0
    ensures info.nextBillingDate == (if s.state == ACTIVE then s.activeUntil else None)
    ensures info.estimatedDelivery.Some? <==> s.state == FULFILLING
    ensures info.estimatedDelivery.Some? ==> info.estimatedDelivery.value - now == 3 * MsPerDay
    ensures info.availableExtensions.Some? <==> s.state == ACTIVE
    ensures info.availableExtensions.Some? ==>
              forall i :: 0 <= i < |info.availableExtensions.value| ==>
                info.availableExtensions.value[i].period > s.rentalPeriod
    ensures s.state == ACTIVE ==>
              info.availableExtensions == Some(AvailableExtensions(s.product.rentalPlans.value, s.rentalPeriod))
    ensures s.state == ACTIVE ==> info.daysRemaining == Some(ActiveDaysRemaining(s.activeUntil, now))
    ensures s.state == TERMINATED ==> info.daysRemaining == Some(0)
    ensures info.terminatedAt == (if s.state == TERMINATED then s.terminatedAt else None)
  {
    match s.state
    case DRAFT =>
      StatusInfo(true, true, false, None, None, None, None, None)
    case FULFILLING =>
      StatusInfo(false, true, false, None, None, Some(now + 3 * MsPerDay), None, None)
    case ACTIVE =>
      var offers := AvailableExtensions(s.product.rentalPlans.value, s.rentalPeriod);
      assert forall i :: 0 <= i < |offers| ==> offers[i] in multiset(offers);
      StatusInfo(false, true, true, Some(ActiveDaysRemaining(s.activeUntil, now)), s.activeUntil,
                 None, None, Some(offers))
    case TERMINATED =>
      StatusInfo(false, false, false, Some(0), None, None, s.terminatedAt, None)
    case _ =>
      StatusInfo(false, false, false, None, None, None, None, None)
  }

  /** The three permission flags of a capability set. */
  datatype Flags = Flags(canEdit: bool, canCancel: bool, canExtend: bool)

  function FlagsOf(info: StatusInfo): Flags {
    Flags(info.canEdit, info.canCancel, info.canExtend)
  }

  /** The capability rows written down for an active, a draft and a terminated subscription. */
  function ExpectedFlags(st: SubscriptionState): Option<Flags> {
    match st
    case ACTIVE => Some(Flags(false, true, true))
    case DRAFT => Some(Flags(true, true, false))
    case TERMINATED => Some(Flags(false, false, false))
    case _ => None
  }

  /** The endpoint agrees with those rows, including their day counts and billing dates. */
  lemma StatusInfoMatchesExpectedRows(s: Subscription, now: int)
    requires s.state == ACTIVE ==> s.product.rentalPlans.Some?
    requires ExpectedFlags(s.state).Some?
    ensures FlagsOf(StatusInfoFor(s, now)) == ExpectedFlags(s.state).value
    ensures s.state == ACTIVE ==> StatusInfoFor(s, now).nextBillingDate == s.activeUntil
    ensures s.state == DRAFT ==> StatusInfoFor(s, now).daysRemaining.None?
    ensures s.state == DRAFT ==> StatusInfoFor(s, now).nextBillingDate.None?
    ensures s.state == TERMINATED ==> StatusInfoFor(s, now).daysRemaining == Some(0)
    ensures s.state == TERMINATED ==> StatusInfoFor(s, now).nextBillingDate.None?
  {
  }

  /** From 2024-06-01 to an active term ending 2024-12-31 there are 213 days left. */
  lemma ActiveDaysRemainingScenario()
    ensures ActiveDaysRemaining(Some(Utc(2024, 12, 31)), Utc(2024, 6, 1)) == 213
  {
    DaysRemainingScenarios();
  }
}

=== FILE: filters.dfy ===
/**
 * The filter panel state: which status to show, the sort key and order,
 * and the search term, with the clear action and the results caption.
 */
module Filters {

  import opened Types
  import opened Text

  datatype StatusFilter = AllStatuses | OnlyState(state: SubscriptionState)
  datatype SortKey = ByDate | ByPrice | ByTitle
  datatype SortOrder = Ascending | Descending

  datatype SubscriptionFilters = SubscriptionFilters(
    status: StatusFilter,
    sortBy: SortKey,
    sortOrder: SortOrder,
    searchTerm: string)

  /** The four keys of the filter record. */
  datatype FilterKey = StatusKey | SortByKey | SortOrderKey | SearchTermKey

  /** A value stored under one of the keys. */
  datatype FilterValue =
    | StatusValue(status: StatusFilter)
    | SortByValue(sortBy: SortKey)
    | SortOrderValue(sortOrder: SortOrder)
    | SearchTermValue(searchTerm: string)

  /** Reads the value under a key. */
  function Field(f: SubscriptionFilters, k: FilterKey): FilterValue {
    match k
    case StatusKey => StatusValue(f.status)
    case SortByKey => SortByValue(f.sortBy)
    case SortOrderKey => SortOrderValue(f.sortOrder)
    case SearchTermKey => SearchTermValue(f.searchTerm)
  }

  /** The key a value belongs under (each control writes its own key). */
  function KeyOf(v: FilterValue): FilterKey {
    match v
    case StatusValue(_) => StatusKey
    case SortByValue(_) => SortByKey
    case SortOrderValue(_) => SortOrderKey
    case SearchTermValue(_) => SearchTermKey
  }

  /** Two records agree on every key but possibly `k`. */
  predicate SameExcept(f: SubscriptionFilters, g: SubscriptionFilters, k: FilterKey) {
    forall k' :: k' != k ==> Field(f, k') == Field(g, k')
  }

  /** `handleFilterChange`: a copy of the record with one key replaced. */
  function HandleFilterChange(f: SubscriptionFilters, v: FilterValue): (r: SubscriptionFilters)
    ensures Field(r, KeyOf(v)) == v
    ensures SameExcept(r, f, KeyOf(v))
  {
    match v
    case StatusValue(x) => f.(status := x)
    case SortByValue(x) => f.(sortBy := x)
    case SortOrderValue(x) => f.(sortOrder := x)
    case SearchTermValue(x) => f.(searchTerm := x)
  }

  /** A record is determined by its four fields. */
  lemma FieldsDetermineFilters(f: SubscriptionFilters, g: SubscriptionFilters)
    requires forall k :: Field(f, k) == Field(g, k)
    ensures f == g
  {
    assert Field(f, StatusKey) == Field(g, StatusKey);
    assert Field(f, SortByKey) == Field(g, SortByKey);
    assert Field(f, SortOrderKey) == Field(g, SortOrderKey);
    assert Field(f, SearchTermKey) == Field(g, SearchTermKey);
  }

  /** Changes to different keys commute, and a later change to the same key wins. */
  lemma FilterChangesCompose(f: SubscriptionFilters, v: FilterValue, w: FilterValue)
    ensures KeyOf(v) != KeyOf(w) ==>
              HandleFilterChange(HandleFilterChange(f, v), w) == HandleFilterChange(HandleFilterChange(f, w), v)
    ensures KeyOf(v) == KeyOf(w) ==>
              HandleFilterChange(HandleFilterChange(f, v), w) == HandleFilterChange(f, w)
  {
    var vw := HandleFilterChange(HandleFilterChange(f, v), w);
    var wv := HandleFilterChange(HandleFilterChange(f, w), v);
    if KeyOf(v) != KeyOf(w) {
      forall k ensures Field(vw, k) == Field(wv, k) {
      }
      FieldsDetermineFilters(vw, wv);
    } else {
      var fw := HandleFilterChange(f, w);
      forall k ensures Field(vw, k) == Field(fw, k) {
      }
      FieldsDetermineFilters(vw, fw);
    }
  }

  /** The state `clearFilters` restores. */
  const DefaultFilters := SubscriptionFilters(AllStatuses, ByDate, Descending, "")

  /** `hasActiveFilters`: some control is away from its default. */
  predicate HasActiveFilters(f: SubscriptionFilters) {
    || f.status != AllStatuses
    || f.searchTerm != ""
    || f.sortBy != ByDate
    || f.sortOrder != Descending
  }

  /** `clearFilters`: every control back to its default, so nothing is active. */
  function ClearFilters(f: SubscriptionFilters): (r: SubscriptionFilters)
    ensures !HasActiveFilters(r)
    ensures r.status == AllStatuses && r.sortBy == ByDate && r.sortOrder == Descending && r.searchTerm == ""
  {
    DefaultFilters
  }

  /** Filters are active exactly when the record differs from the cleared one. */
  lemma HasActiveFiltersIffNotCleared(f: SubscriptionFilters)
    ensures HasActiveFilters(f) <==> f != ClearFilters(f)
  {
  }

  /** The "Clear Filters" button is rendered exactly when filters are active. */
  predicate ShowsClearFiltersButton(f: SubscriptionFilters) {
    HasActiveFilters(f)
  }

  /** Clearing hides the button; any change away from a default shows it. */
  lemma ClearFiltersButtonVisibility(f: SubscriptionFilters, v: FilterValue)
    ensures !ShowsClearFiltersButton(ClearFilters(f))
    ensures Field(HandleFilterChange(f, v), KeyOf(v)) != Field(DefaultFilters, KeyOf(v)) ==>
              ShowsClearFiltersButton(HandleFilterChange(f, v))
  {
  }

  /** The caption above the list: singular for exactly one result, plural otherwise (zero included). */
  function ResultsCountText(count: nat): (text: string)
    ensures text == NatToDecimal(count) + (if count == 1 then " subscription found" else " subscriptions found")
  {
    if count == 1 then "1 subscription found" else NatToDecimal(count) + " subscriptions found"
  }

  /** The caption starts with the count, which reads back to the number. */
  lemma ResultsCountTextReadsBack(count: nat)
    ensures var digits := NatToDecimal(count);
            var text := ResultsCountText(count);
            |digits| < |text| && text[..|digits|] == digits && text[|digits|] == ' '
            && DecimalValue(text[..|digits|]) == count
  {
    NatToDecimalRoundTrip(count);
    var digits := NatToDecimal(count);
    var text := ResultsCountText(count);
    assert text[..|digits|] == digits;
  }
}

=== FILE: lifecycle.dfy ===
/**
 * How the store's transitions relate to the capability set the detail
 * endpoint reports for the same record.
 */
module Lifecycle {

  import opened Types
  import opened Store
  import opened Detail

  /**
   * Extending the first entry with an id succeeds exactly when that entry's
   * capability set allows extension and the requested term is longer.
   */
  lemma ExtendIffCanExtend(subs: seq<Subscription>, id: string, newRentalPeriod: int, now: int)
    requires FindIndex(subs, id).Some?
    requires subs[FindIndex(subs, id).value].product.rentalPlans.Some?
    ensures var s := subs[FindIndex(subs, id).value];
            ExtendSubscription(subs, id, newRentalPeriod).Ok() <==>
              StatusInfoFor(s, now).canExtend && s.rentalPeriod < newRentalPeriod
  {
  }

  /** A successful cancellation only ever happens to an entry whose capability set allows it. */
  lemma CancelImpliesCanCancel(subs: seq<Subscription>, id: string, now: int)
    requires CancelSubscription(subs, id, now).Ok()
    requires subs[FindIndex(subs, id).value].product.rentalPlans.Some?
    ensures StatusInfoFor(subs[FindIndex(subs, id).value], now).canCancel
  {
  }

  /**
   * The converse does not hold: a draft's capability set allows
   * cancellation, yet the store refuses to cancel anything but an active
   * subscription.
   */
  lemma DraftCanCancelButIsRefused(s: Subscription, now: int)
    requires s.state == DRAFT
    ensures StatusInfoFor(s, now).canCancel
    ensures CancelSubscription([s], s.id, now) == Failure(NotActive)
  {
    assert FindIndex([s], s.id) == Some(0);
  }
}

=== FILE: search_bar.dfy ===
/**
 * The search box above the subscription list: a case-insensitive filter on
 * product titles, the results counter and the clear button.
 */
module SearchBar {

  import opened Types
  import opened Text

  /** The entry's lower-cased title contains the lower-cased term. */
  predicate TitleMatches(s: Subscription, term: string) {
    Includes(Lower(s.product.title), Lower(term))
  }

  /** `subscriptions.filter(...)` with the title predicate. */
  function FilterByTitle(subs: seq<Subscription>, term: string): (r: seq<Subscription>)
    ensures |r| <= |subs|
    ensures forall i :: 0 <= i < |r| ==> TitleMatches(r[i], term)
    ensures forall i :: 0 <= i < |subs| && TitleMatches(subs[i], term) ==> subs[i] in r
    ensures forall x :: x in r ==> x in subs
    ensures Subsequence(r, subs)
    ensures forall x :: multiset(r)[x] == if TitleMatches(x, term) then multiset(subs)[x] else 0
  {
    if |subs| == 0 then []
    else
      var rest := FilterByTitle(subs[1..], term);
      FilterCountsStep(subs, term, rest);
      if TitleMatches(subs[0], term) then [subs[0]] + rest else rest
  }

  /** One step of the filter keeps the copy counts of matching entries and zeroes the others. */
  lemma FilterCountsStep(subs: seq<Subscription>, term: string, rest: seq<Subscription>)
    requires |subs| > 0
    requires forall x :: multiset(rest)[x] == if TitleMatches(x, term) then multiset(subs[1..])[x] else 0
    ensures var r := if TitleMatches(subs[0], term) then [subs[0]] + rest else rest;
            forall x :: multiset(r)[x] == if TitleMatches(x, term) then multiset(subs)[x] else 0
  {
    assert subs == [subs[0]] + subs[1..];
    assert multiset(subs) == multiset{subs[0]} + multiset(subs[1..]);
    if TitleMatches(subs[0], term) {
      assert multiset([subs[0]] + rest) == multiset{subs[0]} + multiset(rest);
    }
  }

  /** `a` is `b` with some entries dropped and the rest in their original order. */
  predicate Subsequence<T(==)>(a: seq<T>, b: seq<T>)
    decreases |b|
  {
    if |a| == 0 then true
    else if |b| == 0 then false
    else if a[0] == b[0] then Subsequence(a[1..], b[1..])
    else Subsequence(a, b[1..])
  }

  /** The number of entries the filter keeps. */
  function CountMatches(subs: seq<Subscription>, term: string): (n: nat)
    ensures n <= |subs|
    ensures n == |FilterByTitle(subs, term)|
  {
    if |subs| == 0 then 0
    else (if TitleMatches(subs[0], term) then 1 else 0) + CountMatches(subs[1..], term)
  }

  /** The list the search reports: everything for a blank term, the title matches otherwise. */
  function SearchResults(subs: seq<Subscription>, term: string): (r: seq<Subscription>)
    ensures IsBlank(term) ==> r == subs
    ensures !IsBlank(term) ==> r == FilterByTitle(subs, term)
  {
    if Trim(term) == "" then
      TrimEmptyIffBlank(term);
      subs
    else
      TrimEmptyIffBlank(term);
      FilterByTitle(subs, term)
  }

  /** The counter beside the box, computed from the untrimmed term, blank or not. */
  function ResultsCount(subs: seq<Subscription>, term: string): (n: nat)
    ensures n <= |subs|
    ensures n == |FilterByTitle(subs, term)|
  {
    CountMatches(subs, term)
  }

  /** The clear button and the counter show only while the term is non-empty. */
  predicate ShowsClearButton(term: string) { term != "" }
  predicate ShowsResultsCount(term: string) { term != "" }

  /** The text of the counter. */
  function ResultsCountText(subs: seq<Subscription>, term: string): (text: string)
    ensures |text| > 8 && text[|text| - 8..] == " results"
  {
    NatToDecimal(ResultsCount(subs, term)) + " results"
  }

  /** The counter's text starts with the digits of the count, which read back to it. */
  lemma ResultsCountTextReadsBack(subs: seq<Subscription>, term: string)
    ensures var digits := NatToDecimal(ResultsCount(subs, term));
            var text := ResultsCountText(subs, term);
            |digits| < |text| && text[..|digits|] == digits && text[|digits|] == ' '
            && DecimalValue(text[..|digits|]) == ResultsCount(subs, term)
  {
    NatToDecimalRoundTrip(ResultsCount(subs, term));
    var digits := NatToDecimal(ResultsCount(subs, term));
    var text := ResultsCountText(subs, term);
    assert text[..|digits|] == digits;
  }

  /** Clearing the search empties the term. */
  function ClearSearch(term: string): string {
    ""
  }

  /** A search result keeps entries in order and only ever drops some. */
  lemma SearchResultsIsSubsequence(subs: seq<Subscription>, term: string)
    ensures Subsequence(SearchResults(subs, term), subs)
    ensures |SearchResults(subs, term)| <= |subs|
  {
    if IsBlank(term) {
      SubsequenceReflexive(subs);
    }
  }

  lemma {:induction false} SubsequenceReflexive<T>(s: seq<T>)
    ensures Subsequence(s, s)
    decreases |s|
  {
    if |s| > 0 {
      SubsequenceReflexive(s[1..]);
    }
  }

  /** For a non-blank term, an entry is listed exactly when its title matches. */
  lemma SearchResultsExact(subs: seq<Subscription>, term: string, x: Subscription)
    requires !IsBlank(term)
    ensures x in SearchResults(subs, term) <==> x in subs && TitleMatches(x, term)
  {
  }

  /** Whenever the term is not blank, the counter equals the number of listed entries. */
  lemma ResultsCountMatchesList(subs: seq<Subscription>, term: string)
    requires !IsBlank(term)
    ensures ResultsCount(subs, term) == |SearchResults(subs, term)|
  {
  }

  /** After clearing, the buttons hide and the full list is shown again. */
  lemma ClearRestoresEverything(subs: seq<Subscription>, term: string)
    ensures !ShowsClearButton(ClearSearch(term)) && !ShowsResultsCount(ClearSearch(term))
    ensures SearchResults(subs, ClearSearch(term)) == subs
  {
  }

  /**
   * A term of spaces lists every entry, yet the counter counts only the
   * titles containing a space: one entry listed, "0 results" shown.
   */
  lemma BlankTermCountDisagrees(s: Subscription)
    requires s.product.title == "Laptop"
    ensures SearchResults([s], " ") == [s]
    ensures ShowsResultsCount(" ") && ResultsCount([s], " ") == 0
  {
    assert IsBlank(" ");
    assert !TitleMatches(s, " ") by {
      var lower := Lower(s.product.title);
      assert lower == "laptop";
      assert Lower(" ") == " ";
      forall i | 0 <= i < |lower|
        ensures !OccursAt(lower, " ", i)
      {
        assert lower[i..i + 1][0] == lower[i] != ' ';
      }
    }
    assert [s][1..] == [];
  }

  /**
   * The counter as evidently intended: the length of the list the search
   * reports, whatever the term.
   */
  function DisplayedCount(subs: seq<Subscription>, term: string): (n: nat)
    ensures !IsBlank(term) ==> n == ResultsCount(subs, term)
    ensures IsBlank(term) ==> n == |subs|
  {
    |SearchResults(subs, term)|
  }
}

=== FILE: store.dfy ===
/**
 * The client-side subscription store: a list of records and the three
 * operations that change it. The simulated network round-trip is left out;
 * each operation is a pure function from the list (and the clock) to the
 * outcome and the new list.
 */
module Store {

  import opened Types

  /**
   * A partial record, as spread over an entry by `{ ...sub, ...updates }`:
   * each field is either absent (kept) or present with a new value. A
   * present optional field may carry "no value", which clears it.
   */
  datatype SubscriptionPatch = SubscriptionPatch(
    id: Option<string>,
    referenceId: Option<string>,
    createdAt: Option<int>,
    activatedAt: Option<Option<int>>,
    activeUntil: Option<Option<int>>,
    terminatedAt: Option<Option<int>>,
    rentalPeriod: Option<int>,
    monthlyPrice: Option<int>,
    state: Option<SubscriptionState>,
    productId: Option<string>,
    product: Option<Product>)

  const NoChanges := SubscriptionPatch(None, None, None, None, None, None, None, None, None, None, None)

  /** The patch applied by a successful extension. */
  function ExtendPatch(newRentalPeriod: int): SubscriptionPatch {
    NoChanges.(rentalPeriod := Some(newRentalPeriod))
  }

  /** The patch applied by a successful cancellation at instant `now`. */
  function CancelPatch(now: int): SubscriptionPatch {
    NoChanges.(state := Some(CANCELLED), terminatedAt := Some(Some(now)))
  }

  /** Spreads a patch over a record: present fields win, absent ones are copied. */
  function Merge(s: Subscription, p: SubscriptionPatch): Subscription {
    Subscription(
      p.id.GetOr(s.id),
      p.referenceId.GetOr(s.referenceId),
      p.createdAt.GetOr(s.createdAt),
      p.activatedAt.GetOr(s.activatedAt),
      p.activeUntil.GetOr(s.activeUntil),
      p.terminatedAt.GetOr(s.terminatedAt),
      p.rentalPeriod.GetOr(s.rentalPeriod),
      p.monthlyPrice.GetOr(s.monthlyPrice),
      p.state.GetOr(s.state),
      p.productId.GetOr(s.productId),
      p.product.GetOr(s.product))
  }

  /** The empty patch changes nothing. */
  lemma MergeNoChanges(s: Subscription)
    ensures Merge(s, NoChanges) == s
  {
  }

  /** Spreading the same patch twice is spreading it once. */
  lemma MergeIdempotent(s: Subscription, p: SubscriptionPatch)
    ensures Merge(Merge(s, p), p) == Merge(s, p)
  {
  }

  /**
   * `updateSubscription`: spreads the patch over every entry whose id is
   * `id`; every other entry, the length and the order stay as they were.
   */
  function UpdateSubscription(subs: seq<Subscription>, id: string, p: SubscriptionPatch): (r: seq<Subscription>)
    ensures |r| == |subs|
    ensures forall i :: 0 <= i < |subs| && subs[i].id != id ==> r[i] == subs[i]
    ensures forall i :: 0 <= i < |subs| && subs[i].id == id ==> r[i] == Merge(subs[i], p)
  {
    if |subs| == 0 then []
    else
      var rest := UpdateSubscription(subs[1..], id, p);
      [if subs[0].id == id then Merge(subs[0], p) else subs[0]] + rest
  }

  /** Updating with the same patch twice is updating once. */
  lemma UpdateIdempotent(subs: seq<Subscription>, id: string, p: SubscriptionPatch)
    requires p.id.None? || p.id == Some(id)
    ensures UpdateSubscription(UpdateSubscription(subs, id, p), id, p) == UpdateSubscription(subs, id, p)
  {
    var once := UpdateSubscription(subs, id, p);
    var twice := UpdateSubscription(once, id, p);
    forall i | 0 <= i < |subs|
      ensures twice[i] == once[i]
    {
      if subs[i].id == id {
        MergeIdempotent(subs[i], p);
      }
    }
  }

  /** Updating with the empty patch leaves the list as it was. */
  lemma UpdateNoChanges(subs: seq<Subscription>, id: string)
    ensures UpdateSubscription(subs, id, NoChanges) == subs
  {
    var r := UpdateSubscription(subs, id, NoChanges);
    forall i | 0 <= i < |subs|
      ensures r[i] == subs[i]
    {
      MergeNoChanges(subs[i]);
    }
  }

  /** `Array.prototype.find` on ids: the position of the first entry with id `id`. */
  function FindIndex(subs: seq<Subscription>, id: string): (r: Option<nat>)
    ensures r.None? <==> forall i :: 0 <= i < |subs| ==> subs[i].id != id
    ensures r.Some? ==> r.value < |subs| && subs[r.value].id == id
    ensures r.Some? ==> forall j :: 0 <= j < r.value ==> subs[j].id != id
  {
    if |subs| == 0 then None
    else if subs[0].id == id then Some(0)
    else
      match FindIndex(subs[1..], id)
      case None => None
      case Some(k) => Some(k + 1)
  }

  /** Why a transition was refused. */
  datatype TransitionError =
    | NotFound          // no entry has the id
    | NotActive         // the first entry with the id is not ACTIVE
    | PeriodNotLonger   // the requested term does not exceed the current one

  /** The outcome of a transition: the new list on success, the reason otherwise. */
  datatype Outcome =
    | Success(subscriptions: seq<Subscription>)
    | Failure(error: TransitionError)
  {
    /** The boolean the source returns. */
    predicate Ok() { Success? }

    /** The list after the call: unchanged on failure. */
    function After(before: seq<Subscription>): seq<Subscription> {
      if Success? then subscriptions else before
    }
  }

  /**
   * `extendSubscription`: validates the first entry with the id (found,
   * ACTIVE, strictly longer term) and then sets the term of every entry
   * with that id. The monthly price is not recomputed.
   */
  function ExtendSubscription(subs: seq<Subscription>, id: string, newRentalPeriod: int): (o: Outcome)
    ensures o == Failure(NotFound) <==> forall i :: 0 <= i < |subs| ==> subs[i].id != id
    ensures o.Ok() <==>
              exists k :: 0 <= k < |subs| && subs[k].id == id
                && (forall j :: 0 <= j < k ==> subs[j].id != id)
                && subs[k].state == ACTIVE && subs[k].rentalPeriod < newRentalPeriod
    ensures o.Ok() ==> |o.subscriptions| == |subs|
    ensures o.Ok() ==> forall i :: 0 <= i < |subs| ==>
              o.subscriptions[i] == if subs[i].id == id then subs[i].(rentalPeriod := newRentalPeriod) else subs[i]
  {
    match FindIndex(subs, id)
    case None => Failure(NotFound)
    case Some(k) =>
      if subs[k].state != ACTIVE then Failure(NotActive)
      else if subs[k].rentalPeriod >= newRentalPeriod then Failure(PeriodNotLonger)
      else Success(UpdateSubscription(subs, id, ExtendPatch(newRentalPeriod)))
  }

  /**
   * `cancelSubscription`: validates the first entry with the id (found,
   * ACTIVE) and then marks every entry with that id CANCELLED at `now`.
   */
  function CancelSubscription(subs: seq<Subscription>, id: string, now: int): (o: Outcome)
    ensures o == Failure(NotFound) <==> forall i :: 0 <= i < |subs| ==> subs[i].id != id
    ensures o.Ok() <==>
              exists k :: 0 <= k < |subs| && subs[k].id == id
                && (forall j :: 0 <= j < k ==> subs[j].id != id)
                && subs[k].state == ACTIVE
    ensures o.Ok() ==> |o.subscriptions| == |subs|
    ensures o.Ok() ==> forall i :: 0 <= i < |subs| ==>
              o.subscriptions[i] == if subs[i].id == id then subs[i].(state := CANCELLED, terminatedAt := Some(now)) else subs[i]
  {
    match FindIndex(subs, id)
    case None => Failure(NotFound)
    case Some(k) =>
      if subs[k].state != ACTIVE then Failure(NotActive)
      else Success(UpdateSubscription(subs, id, CancelPatch(now)))
  }

  /** Ids are unique: the records come from a store keyed by id. */
  predicate UniqueIds(subs: seq<Subscription>) {
    forall i, j :: 0 <= i < j < |subs| ==> subs[i].id != subs[j].id
  }

  /** A refused call reports the first failing check and leaves the list unchanged. */
  lemma RejectionReasons(subs: seq<Subscription>, id: string, newRentalPeriod: int, now: int)
    ensures FindIndex(subs, id).Some? && subs[FindIndex(subs, id).value].state != ACTIVE ==>
              ExtendSubscription(subs, id, newRentalPeriod) == Failure(NotActive)
              && CancelSubscription(subs, id, now) == Failure(NotActive)
    ensures FindIndex(subs, id).Some? && subs[FindIndex(subs, id).value].state == ACTIVE
              && subs[FindIndex(subs, id).value].rentalPeriod >= newRentalPeriod ==>
              ExtendSubscription(subs, id, newRentalPeriod) == Failure(PeriodNotLonger)
    ensures !ExtendSubscription(subs, id, newRentalPeriod).Ok() ==>
              ExtendSubscription(subs, id, newRentalPeriod).After(subs) == subs
    ensures !CancelSubscription(subs, id, now).Ok() ==>
              CancelSubscription(subs, id, now).After(subs) == subs
  {
  }

  /** Ids, length and order survive every transition. */
  lemma TransitionsKeepIds(subs: seq<Subscription>, id: string, newRentalPeriod: int, now: int)
    ensures var after := ExtendSubscription(subs, id, newRentalPeriod).After(subs);
            |after| == |subs| && forall i :: 0 <= i < |subs| ==> after[i].id == subs[i].id
    ensures var after := CancelSubscription(subs, id, now).After(subs);
            |after| == |subs| && forall i :: 0 <= i < |subs| ==> after[i].id == subs[i].id
  {
  }

  /** A list change that keeps every id in place keeps the position `find` reports. */
  lemma {:induction false} FindIndexAfterTransition(subs: seq<Subscription>, after: seq<Subscription>, id: string)
    requires |after| == |subs|
    requires forall i :: 0 <= i < |subs| ==> after[i].id == subs[i].id
    ensures FindIndex(after, id) == FindIndex(subs, id)
  {
    match FindIndex(subs, id)
    case None =>
    case Some(k) =>
      var a := FindIndex(after, id);
      assert after[k].id == id;
      assert a.Some?;
      assert a.value <= k;
      assert subs[a.value].id == id;
  }

  /** Retrying a cancellation is refused: the entry is no longer ACTIVE. */
  lemma CancelRetryRejected(subs: seq<Subscription>, id: string, now: int, later: int)
    requires CancelSubscription(subs, id, now).Ok()
    ensures CancelSubscription(CancelSubscription(subs, id, now).subscriptions, id, later) == Failure(NotActive)
  {
    var after := CancelSubscription(subs, id, now).subscriptions;
    FindIndexAfterTransition(subs, after, id);
  }

  /** Retrying an extension to the same term is refused by the strictly-longer check. */
  lemma ExtendRetryRejected(subs: seq<Subscription>, id: string, newRentalPeriod: int)
    requires ExtendSubscription(subs, id, newRentalPeriod).Ok()
    ensures ExtendSubscription(ExtendSubscription(subs, id, newRentalPeriod).subscriptions, id, newRentalPeriod)
            == Failure(PeriodNotLonger)
  {
    var after := ExtendSubscription(subs, id, newRentalPeriod).subscriptions;
    FindIndexAfterTransition(subs, after, id);
  }

  /** A cancelled entry can no longer be extended. */
  lemma ExtendAfterCancelRejected(subs: seq<Subscription>, id: string, now: int, newRentalPeriod: int)
    requires CancelSubscription(subs, id, now).Ok()
    ensures ExtendSubscription(CancelSubscription(subs, id, now).subscriptions, id, newRentalPeriod) == Failure(NotActive)
  {
    var after := CancelSubscription(subs, id, now).subscriptions;
    FindIndexAfterTransition(subs, after, id);
  }

  /** With unique ids, an extension changes exactly one entry and never shortens any term. */
  lemma ExtendNeverShortens(subs: seq<Subscription>, id: string, newRentalPeriod: int)
    requires UniqueIds(subs)
    ensures var after := ExtendSubscription(subs, id, newRentalPeriod).After(subs);
            forall i :: 0 <= i < |subs| ==> after[i].rentalPeriod >= subs[i].rentalPeriod
  {
    var o := ExtendSubscription(subs, id, newRentalPeriod);
    if o.Ok() {
      var k := FindIndex(subs, id).value;
      forall i | 0 <= i < |subs| && subs[i].id == id
        ensures i == k
      {
      }
    }
  }

  /**
   * Only the first entry with the id is validated, yet every entry with that
   * id is changed: with a repeated id, a longer second entry is shortened.
   */
  lemma ExtendShortensRepeatedId(a: Subscription, b: Subscription)
    requires a.id == b.id && a.state == ACTIVE && a.rentalPeriod == 6 && b.rentalPeriod == 24
    ensures var o := ExtendSubscription([a, b], a.id, 12);
            o.Ok() && o.subscriptions[1].rentalPeriod == 12 < b.rentalPeriod
  {
    var o := ExtendSubscription([a, b], a.id, 12);
    assert FindIndex([a, b], a.id) == Some(0);
    assert o.subscriptions[1] == b.(rentalPeriod := 12);
  }

  /**
   * The lifecycle invariant: a termination instant is recorded exactly for
   * ended records, and an activation instant only for records that were
   * activated at some point.
   */
  predicate LifecycleConsistent(s: Subscription) {
    && (s.terminatedAt.Some? <==> s.state in {TERMINATED, CANCELLED})
    && (s.activatedAt.Some? ==> s.state in {ACTIVE, TERMINATED, CANCELLED, PAUSED, EXPIRED})
  }

  /** Both transitions keep the lifecycle invariant of every entry. */
  lemma TransitionsPreserveLifecycle(subs: seq<Subscription>, id: string, newRentalPeriod: int, now: int)
    requires forall i :: 0 <= i < |subs| ==> LifecycleConsistent(subs[i])
    ensures var after := ExtendSubscription(subs, id, newRentalPeriod).After(subs);
            forall i :: 0 <= i < |after| ==> LifecycleConsistent(after[i])
    ensures var after := CancelSubscription(subs, id, now).After(subs);
            forall i :: 0 <= i < |after| ==> LifecycleConsistent(after[i])
  {
  }

  /**
   * Cancelling keeps the end date of the active term: a cancelled record
   * still carries `activeUntil`.
   */
  lemma CancelKeepsActiveUntil(subs: seq<Subscription>, id: string, now: int)
    requires CancelSubscription(subs, id, now).Ok()
    ensures var k := FindIndex(subs, id).value;
            var after := CancelSubscription(subs, id, now).subscriptions;
            after[k].state == CANCELLED && after[k].terminatedAt == Some(now)
            && after[k].activeUntil == subs[k].activeUntil
            && after[k].rentalPeriod == subs[k].rentalPeriod
            && after[k].monthlyPrice == subs[k].monthlyPrice
  {
  }
}

=== FILE: text.dfy ===
/**
 * The string operations the views rely on: `toLowerCase`, `trim`,
 * `includes` and the decimal rendering of integers in template literals.
 */
module Text {

  import opened Types

  /** Lower-cases one character; only the ASCII letters A-Z are mapped. */
  function LowerChar(c: char): (r: char)
    ensures 'A' <= c <= 'Z' ==> 'a' <= r <= 'z' && r as int == c as int + 32
    ensures !('A' <= c <= 'Z') ==> r == c
  {
    if 'A' <= c <= 'Z' then (c as int + 32) as char else c
  }

  function Lower(s: string): (r: string)
    ensures |r| == |s|
    ensures forall i :: 0 <= i < |s| ==> r[i] == LowerChar(s[i])
  {
    seq(|s|, i requires 0 <= i < |s| => LowerChar(s[i]))
  }

  /** Lower-casing twice is lower-casing once. */
  lemma LowerIdempotent(s: string)
    ensures Lower(Lower(s)) == Lower(s)
  {
    assert forall i :: 0 <= i < |s| ==> LowerChar(LowerChar(s[i])) == LowerChar(s[i]);
  }

  /** The characters `String.prototype.trim` strips: WhiteSpace and LineTerminator of ECMAScript. */
  predicate IsWhitespace(c: char) {
    || c == '\t' || c == '\n' || c == '\U{B}' || c == '\U{C}' || c == '\r' || c == ' '
    || c == '\U{A0}' || c == '\U{1680}' || ('\U{2000}' <= c <= '\U{200A}')
    || c == '\U{2028}' || c == '\U{2029}' || c == '\U{202F}' || c == '\U{205F}'
    || c == '\U{3000}' || c == '\U{FEFF}'
  }

  /** True when every character is whitespace (the empty string included). */
  predicate IsBlank(s: string) {
    forall i :: 0 <= i < |s| ==> IsWhitespace(s[i])
  }

  function TrimStart(s: string): (r: string)
    ensures |r| <= |s| && r == s[|s| - |r|..]
    ensures |r| > 0 ==> !IsWhitespace(r[0])
    ensures IsBlank(s[..|s| - |r|])
  {
    if |s| == 0 then s
    else if IsWhitespace(s[0]) then
      var t := TrimStart(s[1..]);
      assert s[1..][..|s| - 1 - |t|] == s[1..|s| - |t|];
      t
    else s
  }

  function TrimEnd(s: string): (r: string)
    ensures |r| <= |s| && r == s[..|r|]
    ensures |r| > 0 ==> !IsWhitespace(r[|r| - 1])
    ensures IsBlank(s[|r|..])
  {
    if |s| == 0 then s
    else if IsWhitespace(s[|s| - 1]) then
      var t := TrimEnd(s[..|s| - 1]);
      assert s[..|s| - 1][|t|..] == s[|t|..|s| - 1];
      t
    else s
  }

  /** `trim`: strips leading and trailing whitespace. */
  function Trim(s: string): (r: string)
    ensures |r| <= |s|
    ensures |r| > 0 ==> !IsWhitespace(r[0]) && !IsWhitespace(r[|r| - 1])
    ensures exists i :: SliceBetweenBlanks(s, r, i)
  {
    var t := TrimStart(s);
    var r := TrimEnd(t);
    SliceBetweenBlanksOfCuts(s, t, r, |s| - |t|);
    r
  }

  /** `r` sits at offset `i` of `s`, with only whitespace before and after it. */
  predicate SliceBetweenBlanks(s: string, r: string, i: int) {
    0 <= i <= |s| - |r| && r == s[i..i + |r|] && IsBlank(s[..i]) && IsBlank(s[i + |r|..])
  }

  /** A prefix of a suffix of `s`, both cut off at whitespace, lies between blanks in `s`. */
  lemma SliceBetweenBlanksOfCuts(s: string, t: string, r: string, i: int)
    requires 0 <= i <= |s| && t == s[i..] && IsBlank(s[..i])
    requires |r| <= |t| && r == t[..|r|] && IsBlank(t[|r|..])
    ensures SliceBetweenBlanks(s, r, i)
  {
    assert t[|r|..] == s[i + |r|..];
  }

  /** `!s.trim()` holds exactly when the string is blank. */
  lemma {:induction false} TrimEmptyIffBlank(s: string)
    ensures Trim(s) == "" <==> IsBlank(s)
  {
    var t := TrimStart(s);
    if Trim(s) == "" {
      assert t[0..] == t;
      assert |t| == 0;
      assert s[..|s|] == s;
    } else {
      var r := Trim(s);
      assert r[0] == s[|s| - |t|..][0];
      assert !IsWhitespace(s[|s| - |t|]);
    }
  }

  /** `s.startsWith(p)`. */
  predicate StartsWith(s: string, p: string) {
    |p| <= |s| && s[..|p|] == p
  }

  /** The needle occurs in the haystack starting at index `i`. */
  predicate OccursAt(haystack: string, needle: string, i: int) {
    0 <= i && i + |needle| <= |haystack| && haystack[i..i + |needle|] == needle
  }

  /** An occurrence at position 0 is a prefix. */
  lemma OccursAtStart(haystack: string, needle: string)
    ensures OccursAt(haystack, needle, 0) <==> StartsWith(haystack, needle)
  {
    if |needle| <= |haystack| {
      assert haystack[0..|needle|] == haystack[..|needle|];
    }
  }

  /** An occurrence past position 0 is an occurrence in the tail, one place earlier. */
  lemma OccursAtTail(haystack: string, needle: string, i: int)
    requires |haystack| > 0 && i >= 1
    ensures OccursAt(haystack, needle, i) <==> OccursAt(haystack[1..], needle, i - 1)
  {
    if i + |needle| <= |haystack| {
      assert haystack[i..i + |needle|] == haystack[1..][i - 1..i - 1 + |needle|];
    }
  }

  /** `haystack.includes(needle)`, searched left to right. */
  function Includes(haystack: string, needle: string): (r: bool)
    ensures r <==> exists i :: OccursAt(haystack, needle, i)
    decreases |haystack|
  {
    OccursAtStart(haystack, needle);
    if StartsWith(haystack, needle) then
      true
    else if |haystack| == 0 then
      assert forall i :: !OccursAt(haystack, needle, i);
      false
    else
      var r := Includes(haystack[1..], needle);
      if r then
        var i :| OccursAt(haystack[1..], needle, i);
        OccursAtTail(haystack, needle, i + 1);
        r
      else
        forall i ensures !OccursAt(haystack, needle, i) {
          if i >= 1 {
            OccursAtTail(haystack, needle, i);
          }
        }
        r
  }

  function DigitChar(d: int): (c: char)
    requires 0 <= d < 10
    ensures '0' <= c <= '9'
  {
    ('0' as int + d) as char
  }

  function DigitValue(c: char): int
    requires '0' <= c <= '9'
  {
    c as int - '0' as int
  }

  predicate AllDigits(s: string) {
    forall i :: 0 <= i < |s| ==> '0' <= s[i] <= '9'
  }

  /** The decimal numeral a digit string denotes. */
  function DecimalValue(s: string): (n: nat)
    requires AllDigits(s)
  {
    if |s| == 0 then 0 else 10 * DecimalValue(s[..|s| - 1]) + DigitValue(s[|s| - 1])
  }

  /** Renders a natural number the way a template literal does: decimal, no leading zeros. */
  function NatToDecimal(n: nat): (s: string)
    ensures |s| > 0 && AllDigits(s)
    ensures |s| > 1 ==> s[0] != '0'
  {
    if n < 10 then [DigitChar(n)] else NatToDecimal(n / 10) + [DigitChar(n % 10)]
  }

  /** Reading the rendered numeral gives back the number. */
  lemma {:induction false} NatToDecimalRoundTrip(n: nat)
    ensures DecimalValue(NatToDecimal(n)) == n
  {
    var s := NatToDecimal(n);
    if n >= 10 {
      NatToDecimalRoundTrip(n / 10);
      assert s[..|s| - 1] == NatToDecimal(n / 10);
    }
  }

  /** Renders any integer: a minus sign before the magnitude when negative. */
  function IntToDecimal(i: int): (s: string)
    ensures i >= 0 ==> AllDigits(s)
    ensures i < 0 ==> |s| > 1 && s[0] == '-' && AllDigits(s[1..])
    ensures i >= 0 && |s| > 1 ==> s[0] != '0'
    ensures i < 0 ==> s[1] != '0'
  {
    if i < 0 then "-" + NatToDecimal(-i) else NatToDecimal(i)
  }

  /** Reads a rendered integer back. */
  function ParseInt(s: string): (r: Option<int>)
  {
    if |s| > 1 && s[0] == '-' && AllDigits(s[1..]) then Some(-(DecimalValue(s[1..]) as int))
    else if |s| > 0 && AllDigits(s) then Some(DecimalValue(s))
    else None
  }

  lemma IntToDecimalRoundTrip(i: int)
    ensures ParseInt(IntToDecimal(i)) == Some(i)
  {
    var s := IntToDecimal(i);
    if i < 0 {
      assert s[1..] == NatToDecimal(-i);
      NatToDecimalRoundTrip(-i);
    } else {
      assert '0' <= s[0] <= '9';
      NatToDecimalRoundTrip(i);
    }
  }
}

=== FILE: types.dfy ===
/**
 * The data model of the subscription dashboard: products, rental plans and
 * subscriptions. Timestamps are integer milliseconds since the Unix epoch
 * (the instants the source parses from ISO strings); money is integer cents.
 */
module Types {

  /** Presence or absence of an optional field (`undefined` in the source). */
  datatype Option<+T> = None | Some(value: T) {
    /** The wrapped value, or `default` when absent. */
    function GetOr(default: T): T {
      match this
      case Some(v) => v
      case None => default
    }
  }

  /** The closed enumeration of lifecycle states. */
  datatype SubscriptionState =
    | DRAFT
    | FULFILLING
    | ACTIVE
    | TERMINATED
    | PAUSED
    | CANCELLED
    | EXPIRED

  /** The wire spelling of a state, as the source compares and prints it. */
  function StateName(st: SubscriptionState): string {
    match st
    case DRAFT => "DRAFT"
    case FULFILLING => "FULFILLING"
    case ACTIVE => "ACTIVE"
    case TERMINATED => "TERMINATED"
    case PAUSED => "PAUSED"
    case CANCELLED => "CANCELLED"
    case EXPIRED => "EXPIRED"
  }

  /** Reads a wire spelling back; anything outside the enumeration is rejected. */
  function ParseState(s: string): (r: Option<SubscriptionState>)
    ensures r.Some? ==> StateName(r.value) == s
  {
    if s == "DRAFT" then Some(DRAFT)
    else if s == "FULFILLING" then Some(FULFILLING)
    else if s == "ACTIVE" then Some(ACTIVE)
    else if s == "TERMINATED" then Some(TERMINATED)
    else if s == "PAUSED" then Some(PAUSED)
    else if s == "CANCELLED" then Some(CANCELLED)
    else if s == "EXPIRED" then Some(EXPIRED)
    else None
  }

  /** Every state has a spelling that parses back to it, so spellings are distinct. */
  lemma StateNameRoundTrip(st: SubscriptionState)
    ensures ParseState(StateName(st)) == Some(st)
  {
  }

  datatype RentalPlan = RentalPlan(id: string, period: int, price: int, productId: string)

  datatype Product = Product(
    id: string,
    slug: string,
    title: string,
    coreAttribute: string,
    image: string,
    rentalPlans: Option<seq<RentalPlan>>)

  datatype Subscription = Subscription(
    id: string,
    referenceId: string,
    createdAt: int,
    activatedAt: Option<int>,
    activeUntil: Option<int>,
    terminatedAt: Option<int>,
    rentalPeriod: int,
    monthlyPrice: int,
    state: SubscriptionState,
    productId: string,
    product: Product)
}

=== FILE: utils.dfy ===
/**
 * Date arithmetic and status labels shared by the views and the detail
 * handler. The current instant `now` is an explicit parameter; instants are
 * integer milliseconds since the Unix epoch.
 */
module Utils {

  import opened Types

  const MsPerDay: int := 1000 * 60 * 60 * 24
  const MsPerMonth: int := MsPerDay * 30

  /**
   * Ceiling of a / b for a positive divisor: the least integer r with
   * a <= r * b. Dafny's `/` floors for positive divisors, so the ceiling is
   * the negated floor of the negated dividend.
   */
  function CeilDiv(a: int, b: int): (r: int)
    requires b > 0
    ensures (r - 1) * b < a <= r * b
  {
    var q := (-a) / b;
    assert -a == q * b + (-a) % b;
    -q
  }

  /** The ceiling quotient is the only integer with the defining bracket. */
  lemma CeilDivUnique(a: int, b: int, r: int)
    requires b > 0
    requires (r - 1) * b < a <= r * b
    ensures CeilDiv(a, b) == r
  {
    var c := CeilDiv(a, b);
    if c < r {
      MulMonotone(c, r - 1, b);
    } else if c > r {
      MulMonotone(r, c - 1, b);
    }
  }

  lemma MulMonotone(x: int, y: int, b: int)
    requires b > 0 && x <= y
    ensures x * b <= y * b
  {
  }

  /** An exact multiple divides evenly: no rounding happens. */
  lemma CeilDivExact(k: int, b: int)
    requires b > 0
    ensures CeilDiv(k * b, b) == k
  {
    assert (k - 1) * b == k * b - b;
    CeilDivUnique(k * b, b, k);
  }

  /** Ceiling division is monotone in the dividend. */
  lemma CeilDivMonotone(a1: int, a2: int, b: int)
    requires b > 0 && a1 <= a2
    ensures CeilDiv(a1, b) <= CeilDiv(a2, b)
  {
    var c1, c2 := CeilDiv(a1, b), CeilDiv(a2, b);
    if c1 > c2 {
      MulMonotone(c2, c1 - 1, b);
    }
  }

  /** Adding whole divisors to the dividend adds as many units to the quotient. */
  lemma CeilDivShift(a: int, k: int, b: int)
    requires b > 0
    ensures CeilDiv(a + k * b, b) == CeilDiv(a, b) + k
  {
    var c := CeilDiv(a, b);
    assert (c + k - 1) * b == (c - 1) * b + k * b;
    assert (c + k) * b == c * b + k * b;
    CeilDivUnique(a + k * b, b, c + k);
  }

  /**
   * Whole days left until `endDate`, rounding a partial day up; negative
   * once the end lies in the past, with no clamping.
   */
  function CalculateDaysRemaining(endDate: int, now: int): (days: int)
    ensures (days - 1) * MsPerDay < endDate - now <= days * MsPerDay
  {
    CeilDiv(endDate - now, MsPerDay)
  }

  /**
   * Flat 30-day months elapsed since `startDate`, rounding a partial month
   * up; negative for a start in the future, with no clamping.
   */
  function CalculateMonthsActive(startDate: int, now: int): (months: int)
    ensures (months - 1) * MsPerMonth < now - startDate <= months * MsPerMonth
  {
    CeilDiv(now - startDate, MsPerMonth)
  }

  /** A difference of exactly `k` days reports `k`, in either direction. */
  lemma DaysRemainingWholeDays(now: int, k: int)
    ensures CalculateDaysRemaining(now + k * MsPerDay, now) == k
  {
    CeilDivExact(k, MsPerDay);
  }

  /** The same instant leaves zero days. */
  lemma DaysRemainingSameInstant(t: int)
    ensures CalculateDaysRemaining(t, t) == 0
  {
    DaysRemainingWholeDays(t, 0);
  }

  /** Days remaining never increase as the clock advances. */
  lemma DaysRemainingNonIncreasing(endDate: int, now1: int, now2: int)
    requires now1 <= now2
    ensures CalculateDaysRemaining(endDate, now2) <= CalculateDaysRemaining(endDate, now1)
  {
    CeilDivMonotone(endDate - now2, endDate - now1, MsPerDay);
  }

  /** Moving the clock back by `k` whole days adds exactly `k` days remaining. */
  lemma DaysRemainingShift(endDate: int, now: int, k: int)
    ensures CalculateDaysRemaining(endDate, now - k * MsPerDay) == CalculateDaysRemaining(endDate, now) + k
  {
    CeilDivShift(endDate - now, k, MsPerDay);
  }

  /** Months active never decrease as the clock advances. */
  lemma MonthsActiveNonDecreasing(startDate: int, now1: int, now2: int)
    requires now1 <= now2
    ensures CalculateMonthsActive(startDate, now1) <= CalculateMonthsActive(startDate, now2)
  {
    CeilDivMonotone(now1 - startDate, now2 - startDate, MsPerMonth);
  }

  /** A difference of exactly `k` flat months reports `k`. */
  lemma MonthsActiveWholeMonths(startDate: int, k: int)
    ensures CalculateMonthsActive(startDate, startDate + k * MsPerMonth) == k
  {
    CeilDivExact(k, MsPerMonth);
  }

  /** Any started month counts as a whole one: 1..30 days give 1, 31..60 give 2. */
  lemma MonthsActivePartial(startDate: int, days: int)
    requires 0 < days <= 60
    ensures CalculateMonthsActive(startDate, startDate + days * MsPerDay) == if days <= 30 then 1 else 2
  {
    var m := if days <= 30 then 1 else 2;
    CeilDivUnique(days * MsPerDay, MsPerMonth, m);
  }

  /**
   * Days since 1970-01-01 of a proleptic Gregorian calendar date, so that
   * the instants the source parses from "YYYY-MM-DD" (UTC midnight) can be
   * written as dates.
   */
  function CivilDays(y: int, m: int, d: int): int
    requires 1 <= m <= 12 && 1 <= d <= 31
  {
    var y' := if m <= 2 then y - 1 else y;
    var era := y' / 400;
    var yoe := y' - era * 400;
    var mp := if m > 2 then m - 3 else m + 9;
    var doy := (153 * mp + 2) / 5 + d - 1;
    var doe := yoe * 365 + yoe / 4 - yoe / 100 + doy;
    era * 146097 + doe - 719468
  }

  /** The instant of UTC midnight starting the given date. */
  function Utc(y: int, m: int, d: int): int
    requires 1 <= m <= 12 && 1 <= d <= 31
  {
    CivilDays(y, m, d) * MsPerDay
  }

  /** Days remaining between two UTC midnights is the whole number of days between them. */
  lemma DaysRemainingOverDays(endDay: int, nowDay: int)
    ensures CalculateDaysRemaining(endDay * MsPerDay, nowDay * MsPerDay) == endDay - nowDay
  {
    assert endDay * MsPerDay == nowDay * MsPerDay + (endDay - nowDay) * MsPerDay;
    DaysRemainingWholeDays(nowDay * MsPerDay, endDay - nowDay);
  }

  /** The day numbers of the calendar dates the scenarios use. */
  lemma ScenarioDates()
    ensures CivilDays(2023, 12, 1) == 19692
    ensures CivilDays(2023, 12, 31) == 19722
    ensures CivilDays(2024, 1, 1) == 19723
    ensures CivilDays(2024, 1, 2) == 19724
    ensures CivilDays(2024, 1, 31) == 19753
    ensures CivilDays(2024, 6, 1) == 19875
    ensures CivilDays(2024, 12, 31) == 20088
    ensures CivilDays(2025, 1, 1) == 20089
  {
  }

  /** The day numbers of the further dates the month scenarios use. */
  lemma MonthScenarioDates()
    ensures CivilDays(2024, 5, 15) == 19858
    ensures CivilDays(2024, 6, 15) == 19889
    ensures CivilDays(2024, 7, 1) == 19905
    ensures CivilDays(2024, 8, 1) == 19936
    ensures CivilDays(2024, 12, 1) == 20058
  {
  }

  /** The day counts the utility's own scenarios expect, with the clock at 2024-01-01. */
  lemma DaysRemainingScenarios()
    ensures CalculateDaysRemaining(Utc(2024, 1, 31), Utc(2024, 1, 1)) == 30
    ensures CalculateDaysRemaining(Utc(2024, 1, 2), Utc(2024, 1, 1)) == 1
    ensures CalculateDaysRemaining(Utc(2024, 1, 1), Utc(2024, 1, 1)) == 0
    ensures CalculateDaysRemaining(Utc(2023, 12, 31), Utc(2024, 1, 1)) == -1
    ensures CalculateDaysRemaining(Utc(2023, 12, 1), Utc(2024, 1, 1)) == -31
    ensures CalculateDaysRemaining(Utc(2024, 12, 31), Utc(2024, 1, 1)) == 365
    ensures CalculateDaysRemaining(Utc(2025, 1, 1), Utc(2024, 1, 1)) == 366
    ensures CalculateDaysRemaining(Utc(2024, 12, 31), Utc(2024, 6, 1)) == 213
  {
    ScenarioDates();
    DaysRemainingOverDays(19753, 19723);
    DaysRemainingOverDays(19724, 19723);
    DaysRemainingOverDays(19723, 19723);
    DaysRemainingOverDays(19722, 19723);
    DaysRemainingOverDays(19692, 19723);
    DaysRemainingOverDays(20088, 19723);
    DaysRemainingOverDays(20089, 19723);
    DaysRemainingOverDays(20088, 19875);
  }

  /** Months active between two UTC midnights, from the whole number of days between them. */
  lemma MonthsActiveOverDays(startDay: int, nowDay: int, m: int)
    requires (m - 1) * 30 < nowDay - startDay <= m * 30
    ensures CalculateMonthsActive(startDay * MsPerDay, nowDay * MsPerDay) == m
  {
    var days := nowDay - startDay;
    assert nowDay * MsPerDay - startDay * MsPerDay == days * MsPerDay;
    assert (m - 1) * MsPerMonth == (m - 1) * 30 * MsPerDay;
    assert m * MsPerMonth == m * 30 * MsPerDay;
    MulMonotone(days, m * 30, MsPerDay);
    MulMonotone((m - 1) * 30 + 1, days, MsPerDay);
    CeilDivUnique(days * MsPerDay, MsPerMonth, m);
  }

  /** The month counts the utility's own scenarios expect, with the clock at 2024-07-01. */
  lemma MonthsActiveScenarios()
    ensures CalculateMonthsActive(Utc(2024, 1, 1), Utc(2024, 7, 1)) == 7
    ensures CalculateMonthsActive(Utc(2024, 6, 1), Utc(2024, 7, 1)) == 1
    ensures CalculateMonthsActive(Utc(2024, 7, 1), Utc(2024, 7, 1)) == 0
    ensures CalculateMonthsActive(Utc(2024, 6, 15), Utc(2024, 7, 1)) == 1
    ensures CalculateMonthsActive(Utc(2024, 5, 15), Utc(2024, 7, 1)) == 2
    ensures CalculateMonthsActive(Utc(2024, 8, 1), Utc(2024, 7, 1)) == -1
    ensures CalculateMonthsActive(Utc(2024, 12, 1), Utc(2024, 7, 1)) == -5
  {
    ScenarioDates();
    MonthScenarioDates();
    MonthsActiveOverDays(19723, 19905, 7);
    MonthsActiveOverDays(19875, 19905, 1);
    MonthsActiveOverDays(19905, 19905, 0);
    MonthsActiveOverDays(19889, 19905, 1);
    MonthsActiveOverDays(19858, 19905, 2);
    MonthsActiveOverDays(19936, 19905, -1);
    MonthsActiveOverDays(20058, 19905, -5);
  }

  /** The badge label of a state string; unknown spellings are shown as they are. */
  function GetStatusText(state: string): (text: string)
    ensures state == "DRAFT" ==> text == "Customizing"
    ensures state == "FULFILLING" ==> text == "In preparation"
    ensures state == "ACTIVE" ==> text == "Active"
    ensures state == "TERMINATED" ==> text == "Completed"
    ensures state !in {"DRAFT", "FULFILLING", "ACTIVE", "TERMINATED"} ==> text == state
  {
    if state == "DRAFT" then "Customizing"
    else if state == "FULFILLING" then "In preparation"
    else if state == "ACTIVE" then "Active"
    else if state == "TERMINATED" then "Completed"
    else state
  }

  /** The labels of the seven states are pairwise distinct: a badge identifies its state. */
  lemma StatusTextInjective(a: SubscriptionState, b: SubscriptionState)
    requires GetStatusText(StateName(a)) == GetStatusText(StateName(b))
    ensures a == b
  {
  }
}
